=== FILE: README.md ===
# ICMP ping core, modelled in Dafny

This project models the protocol and bookkeeping logic of the `icmp` package
of `corex-io/libnet`, a small ping library:

- **Statistics aggregator** (`Stats`, from `icmp/statistics.go`): the
  `Statistics` record, the per-attempt `update`, its fold over a whole
  session, and the gate in `Print` that shows the RTT line only when nothing
  was lost.
- **Echo exchange** (`Exchange`, from `echo` in `icmp/icmp.go`): the
  sequence-number guard, the transmit steps, and the receive loop that
  discards, accepts or stops on each decoded datagram.
- **Session** (`Session`, from `icmp/icmp.go`): `Lookup`'s choice among
  resolved addresses, `New`'s 16-bit identifier, and the `ping` loop over
  sequence numbers with cancellation.
- **Configuration** (`Config`, from `icmp/options.go`): defaults, the four
  setters, and `newOptions`, which applies options and then extensions in
  order.

`Wrappers` holds `Option`/`Result`; `GoInt` holds `math.MaxInt64` and Go's
truncating `/` and `%`.

Durations are whole nanoseconds held in unbounded `int`s. `Loss` is kept as
the exact fraction `(Transmitted-Received)*100 / Transmitted` that Go
approximates with a `float64`. Everything the program gets from the outside
is a parameter:
- the resolver's answer and the random draw among its addresses;
- the process id;
- for every sequence number, how far transmitting got (`Transmit`) and the
  decoded reads the socket delivered before the deadline (`seq<Read>`, each
  datagram carrying its source, TTL and the time elapsed since the send);
- the iteration at whose top the context is first seen done (`cancelAt`).

A read sequence that runs out stands for the read deadline passing.

Some behaviour of the code is worth stating plainly, since a reader might
expect otherwise:
- The identifier test of an Echo Reply compares the reply's identifier with
  itself (`icmp/icmp.go:205`). The identifier is therefore never checked, and
  a reply to another session with the same sequence number is accepted
  (`Exchange.IdentifierNeverChecked`).
- Sequence numbers do not wrap modulo 65536. `echo` rejects any sequence
  number above 65535 (`icmp/icmp.go:133-135`), and `ping` counts upward
  without bound. In an unbounded session every echo from the 65537th on
  fails without being sent (`Session.NoWrapAround`).
- The interval between echoes is a fixed one-second sleep, not an option.
- The returned error is the last echo's error, even when the session was
  cancelled afterwards.
- A session with zero attempts passes the `Received == Transmitted` gate.
  Its RTT line then shows the `MaxInt64` sentinel as the minimum
  (`Stats.EmptySessionShowsSentinel`).

## Model

| member | source | states |
|---|---|---|
| `Stats.Update` | icmp/statistics.go:24-41 | `Transmitted` grows by exactly 1 on every call. A nil stat changes only `Transmitted` and `Loss`. A stat with cost c adds 1 to `Received`, c to `Time` and c² to `TimeExp2`. The new min is at most both the old min and c and equals one of them; max is symmetric. The average is `Time / Received` truncated. Loss is recomputed from the two counters. |
| `Stats.Aggregate` | icmp/icmp.go:96-109 | Folding a session's outcomes keeps the host and adds exactly one transmission per outcome. It never adds more receptions than outcomes. |
| `Stats.AggregateSummarises` | icmp/statistics.go:24-41 | From the initial record, after any sequence of outcomes: `Transmitted` is the number of attempts and `Received` the number of successes. `Time` and `TimeExp2` are the sum and the sum of squares of the successful costs. `minRTT` and `maxRTT` bound every cost and are a cost or their `MaxInt64`/0 start. `avgRTT` is the truncated mean (0 with no success). Loss is 100 before any attempt, otherwise lost×100/transmitted. |
| `Stats.AverageBetweenExtremes` | icmp/statistics.go:31-37 | With non-negative costs and at least one success, `minRTT <= avgRTT <= maxRTT`. |
| `Stats.MeanBetween` | icmp/statistics.go:34 | The truncated mean of non-empty, non-negative costs that all lie between two bounds also lies between them. |
| `GoInt.QuotBounds` | icmp/statistics.go:34 | Go's truncating `/` leaves a remainder smaller than the divisor, with the sign of the dividend. |
| `GoInt.QuotUnique` | icmp/statistics.go:34 | A non-negative quotient whose multiple leaves a remainder in `[0, divisor)` is the one Go's `/` yields. |
| `GoInt.Rem` | icmp/icmp.go:127-130 | Go's `%` by a positive divisor lies in `[0, divisor)` for a non-negative dividend and in `(-divisor, 0]` for a negative one. |
| `GoInt.RemUnique` | icmp/icmp.go:127-130 | Any value that differs from the dividend by a multiple of the divisor and lies in the range for the dividend's sign is the one Go's `%` yields. |
| `GoInt.RemExamples` | icmp/icmp.go:128 | Go's `%` gives 5 % 3 = 2, -5 % 3 = -2, 70000 % 65536 = 4464 and -1 % 65536 = -1. |
| `Stats.LossOfMeaning` | icmp/statistics.go:40 | Once something was transmitted, loss is 0 exactly when every echo came back and 100 exactly when none did. With no more receptions than transmissions it lies between 0 and 100. |
| `Stats.LossExtremes` | icmp/statistics.go:40 | A session of only successes has `Received == Transmitted` and loss 0. A session of only failures has `Received == 0` and loss 100. |
| `Stats.Print` | icmp/statistics.go:49-59 | The report carries host, counters, loss and time. It has an RTT line (min/avg/max) exactly when `Received == Transmitted`. |
| `Stats.RttLineIffNoLoss` | icmp/statistics.go:54-57 | After a session the RTT line is shown if and only if every echo succeeded. |
| `Stats.EmptySessionShowsSentinel` | icmp/statistics.go:54-57 | With no attempt at all, the RTT line is shown with the `MaxInt64` sentinel as its minimum. |
| `Stats.FourAnsweredEchoes` | icmp/statistics.go:24-41 | Four echoes answered after 10, 12, 11 and 13 ms: 4 transmitted, 4 received, loss 0, min 10 ms, max 13 ms, mean 11.5 ms, RTT line shown. |
| `Stats.FourLostEchoes` | icmp/statistics.go:24-57 | Four failed echoes: 4 transmitted, 0 received, loss 100, no RTT line. |
| `Config.Apply` | icmp/options.go:37-65 | Each setter writes its own field and leaves the other three alone. `Count(0)` stores `MaxInt64`; any other count is stored unchanged. |
| `Config.NewOptions` | icmp/options.go:20-34 | The result is the defaults with the options and then the extensions applied, as one list in order. |
| `Config.ApplyAllConcat` | icmp/options.go:27-32 | Running two setter lists one after the other equals running their concatenation. |
| `Config.LastWriterWins` | icmp/options.go:27-32 | After a setter list runs, the last setter of a field decides that field. |
| `Config.Untouched` | icmp/options.go:27-32 | A field no setter in the list writes keeps its previous value. |
| `Config.DefaultsKept` | icmp/options.go:21-26 | A field no option or extension sets keeps its default: size 56, count 4, timeout 3 s, log discarded. |
| `Config.NewOptionsLastWriterWins` | icmp/options.go:20-34 | Across options followed by extensions, the last setter of a field decides its value. |
| `Exchange.Classify` | icmp/icmp.go:168-226 | A read is discarded exactly when it is a datagram from another source, an Echo Request, or an Echo Reply for another sequence. It is accepted exactly when it is an Echo Reply with an Echo body from the target with the sent sequence; the result then carries that sequence, the header TTL and the elapsed time. Every other read stops the loop with an error. Cancellation, a read deadline, any other read error, a bad IP header and an unparsable message from the target each give their own error, and only that read gives it. |
| `Exchange.Receive` | icmp/icmp.go:168-228 | A success carries the sent sequence number, which is then within [0, 65535] like every parsed Echo field, and the TTL of some matching read. The loop never fails with the sequence-guard error. |
| `Exchange.ReceiveSucceedsIff` | icmp/icmp.go:188-208 | The loop yields a given stat if and only if some read matches after only skippable reads, and the stat is that read's sequence, TTL and elapsed time. |
| `Exchange.ReceiveFailsIff` | icmp/icmp.go:168-228 | The loop fails with error e if and only if the first read it does not skip stops it with e. Or e is the timeout and every read was skipped until the deadline. |
| `Exchange.CanceledIff` | icmp/icmp.go:169-171 | The loop reports cancellation if and only if the context's done signal comes before any read it does not skip. |
| `Exchange.TimedOutIff` | icmp/icmp.go:176-178 | The loop reports the request timeout if and only if a read deadline error comes before any read it does not skip, or every read is skipped. |
| `Exchange.AllSkippedTimesOut` | icmp/icmp.go:168-190 | A stream made only of skippable reads ends in the request timeout. |
| `Exchange.SkippedReadsVanish` | icmp/icmp.go:188-207 | Skippable reads in front of a stream do not change the outcome, so stale replies are never counted. |
| `Exchange.IdentifierNeverChecked` | icmp/icmp.go:205-207 | Rewriting the identifier of every Echo body in the stream leaves the outcome unchanged. |
| `Exchange.ErrorTypesTerminate` | icmp/icmp.go:200-225 | A datagram from the target that is not an Echo Request, and not an Echo Reply with an Echo body, ends the loop with an error whatever follows. An Echo Reply without an Echo body gives the reply-data error. Destination Unreachable gives its own error. |
| `Exchange.Echo` | icmp/icmp.go:132-166 | A sequence number above 65535 fails with the guard error, whatever the network does. A success needs a completed transmit and a sequence in [0, 65535], and carries that sequence. A failed transmit is a failure. A completed transmit of a valid sequence has the receive loop's outcome. |
| `Exchange.EchoSucceedsIff` | icmp/icmp.go:132-228 | An echo succeeds with a given stat if and only if the sequence passes the guard, the request went out, and some reply matches after only skippable reads. The stat is then that reply's sequence, TTL and elapsed time. |
| `Exchange.EchoAt` | icmp/icmp.go:127-130 | The sequence derived from the clock with Go's `%` never trips the guard. A success carries exactly that clock-derived sequence, which lies in [0, 65535]. A clock reading whose remainder is negative (before 1970) can only fail, since no parsed reply carries a negative sequence. |
| `Session.Lookup` | icmp/icmp.go:28-38 | Lookup fails exactly when resolution fails or returns no address. Otherwise it returns one of the returned addresses. |
| `Session.LookupCanChooseAny` | icmp/icmp.go:36-37 | Every resolved address is the chosen one for some draw. |
| `Session.New` | icmp/icmp.go:54-60 | The identifier is in [0, 65535], congruent to the pid modulo 65536, and equal to the pid when the pid fits. The options are the defaults with the given setters applied. |
| `Session.Ping` | icmp/icmp.go:72-124 | A failed lookup returns the initial statistics (0 transmitted, loss 100, min at the sentinel) and the lookup error. Otherwise the result is as for `Session.Loop`. |
| `Session.Loop` | icmp/icmp.go:96-119 | The loop runs exactly the echoes whose top-of-loop check passes. A check passes while the count is not reached, the context is not done, and the previous echo did not see the cancellation. The statistics are those echoes' outcomes accounted in order, with `Received <= Transmitted`. The error is the last echo's. |
| `Session.RunIsAggregate` | icmp/icmp.go:96-109 | Accounting echoes one iteration at a time gives the fold of `update` over their samples. |
| `Session.SampleAt` | icmp/icmp.go:107-109 | The k-th sample fed to `update` is the outcome of echo k, nil when it failed. |
| `Session.RunsFullCount` | icmp/icmp.go:96-109 | Without cancellation the loop runs exactly `count` echoes, so `Transmitted == count`. |
| `Session.NegativeCountRunsNothing` | icmp/icmp.go:96 | A count of zero or less, which a negative `Count(n)` stores unchanged, runs no echo: the statistics stay the initial ones. |
| `Session.StopsAtCancellation` | icmp/icmp.go:100-105 | Cancellation first seen at the top of iteration K, with no earlier echo seeing it, stops the loop after exactly K echoes. |
| `Session.NoWrapAround` | icmp/icmp.go:133-135 | Every echo numbered above 65535 in a session is a failure. Every successful sample carries its own iteration number as its sequence. |
| `Session.UnboundedCount` | icmp/options.go:51-57 | A setter list ending in `Count(0)` yields a pinger with count `MaxInt64`. |

## Left out

- Sockets, DNS and time: dialling, reading, writing, deadlines, `net.LookupHost`, the random source, `time.Now`, `time.Since` and the one-second sleep. Their results are parameters (see above).
- The network name `"udp:icmp"` passed to `net.Dial` (`icmp/icmp.go:136`): Go's dialer appears to accept a `:proto` suffix only after `ip`, `ip4` or `ip6`, so as written every dial would likely fail. The model leaves the transmit outcome free, so it treats a successful dial as possible; a failing dial is the `DialError` case.
- ICMP marshalling and parsing, including the RFC 792 checksum and variable-length IPv4 headers. These are calls into `golang.org/x/net`, whose code is not part of this model. A datagram arrives decoded, or marked as a header or message that failed to parse.
- The IPv6 Echo Reply case at `icmp/icmp.go:200` cannot match, because messages are parsed as ICMPv4. Message types are modelled as ICMPv4 type numbers only.
- The identifier and payload of the outgoing request shape only the bytes sent, so `Exchange.Echo` takes neither.
- `Exchange.Echo`: a negative `Size(n)` is stored unchanged (`icmp/options.go:37-41`), and `bytes.Repeat` at `icmp/icmp.go:148` then panics after a successful dial. The model's `Echo` never sees the size and returns an ordinary outcome there instead of aborting.
- The read buffer size `20+size` (`icmp/icmp.go:173`) can truncate a reply, and the byte count `conn.Read` returns is discarded. A longer reply usually still parses with its data cut off; it can fail to parse when the IP header, or the 8-byte Echo header after it, does not fit. The model takes each read already decoded, so it covers both outcomes but does not derive which one occurs from the size.
- Decoded Echo identifiers and sequence numbers are 16-bit (`uint16`), as the ICMP parser yields them. A negative sequence sent by `echo` is marshalled as its 16-bit wrap and is not modelled; no reply can match it.
- `mdevRTT`: it is computed with a floating-point square root.
- The `%.2f` and `%.3f` text formatting of `String` and `Print`, and all printing done by `ping`.
- `Stats.Update`: `Time` and `TimeExp2` are unbounded integers, so the int64 wrap-around of Go is not modelled. A single squared cost wraps above about 3.04 s, and the running sum `TimeExp2` wraps once it passes 2^63-1, for example after about 922 samples of 100 ms. An unbounded session (`Count(0)`) reaches that. From there on `Stats.AggregateSummarises`'s `timeExp2 == SumSquares(cs)` no longer matches Go's value.
- `Transmitted` and `Received` are natural numbers in the model. Only a `Statistics` whose `Transmitted` is already -1 would make the loss division 0/0. `ping` never builds one, since it starts from 0 and only increments. A negative count simply runs no echo (`Session.NegativeCountRunsNothing`).
- The exported `Send` and `Ping` wrappers only call `ping`, with printing off or on.
- The call sites that do not type-check (`newOptions(opts...)` at `icmp/icmp.go:55`, `stats.Print(os.Stdout)` at `icmp/icmp.go:121`) are modelled by the bodies they evidently mean to call. `Session.New` applies the setters as the options with no extensions.
- `icmp/ping/ping.go` (flag parsing, signals, goroutines) and the `tcp` package: process plumbing and a separate TCP server, not part of this core.

=== FILE: config.dfy ===
/** The functional-options configuration of `icmp/options.go`: defaults,
    four setters, and `newOptions`, which applies setters in order. */
module Config {
  import opened GoInt

  /** One nanosecond-based `time.Second`. */
  const Second: int := 1_000_000_000

  /** An `io.Writer` the log goes to; only its identity matters here. */
  datatype Sink = Discard | Writer(name: string)

  datatype Options = Options(count: int, size: int, log: Sink, timeout: int)

  /** The `Option` closures the package exports, one constructor per setter. */
  datatype Setter = Size(size: int) | Timeout(timeout: int) | Count(count: int) | Log(w: Sink)

  datatype Field = SizeField | TimeoutField | CountField | LogField

  /** The defaults `newOptions` starts from. */
  function Defaults(): Options {
    Options(count := 4, size := 56, log := Discard, timeout := 3 * Second)
  }

  /** The field a setter writes. */
  function FieldOf(s: Setter): Field {
    match s
    case Size(_) => SizeField
    case Timeout(_) => TimeoutField
    case Count(_) => CountField
    case Log(_) => LogField
  }

  /** `a` and `b` agree on field `f`. */
  predicate Same(a: Options, b: Options, f: Field) {
    match f
    case SizeField => a.size == b.size
    case TimeoutField => a.timeout == b.timeout
    case CountField => a.count == b.count
    case LogField => a.log == b.log
  }

  /** The count `Count(c)` stores: zero stands for an unbounded session. */
  function StoredCount(c: int): int {
    if c == 0 then MaxInt64 else c
  }

  /** `o` holds what setter `s` writes. */
  predicate Holds(o: Options, s: Setter) {
    match s
    case Size(v) => o.size == v
    case Timeout(v) => o.timeout == v
    case Count(c) => o.count == StoredCount(c)
    case Log(w) => o.log == w
  }

  /** Run one setter. */
  function Apply(o: Options, s: Setter): (r: Options)
    ensures Holds(r, s)
    ensures forall f :: f != FieldOf(s) ==> Same(r, o, f)
  {
    match s
    case Size(v) => o.(size := v)
    case Timeout(v) => o.(timeout := v)
    case Count(c) => o.(count := StoredCount(c))
    case Log(w) => o.(log := w)
  }

  /** Run setters front to back, as the loops of `newOptions` do. */
  function ApplyAll(o: Options, ss: seq<Setter>): Options
    decreases |ss|
  {
    if |ss| == 0 then o else ApplyAll(Apply(o, ss[0]), ss[1..])
  }

  /** Running two lists of setters one after the other runs their concatenation. */
  lemma {:induction false} ApplyAllConcat(o: Options, a: seq<Setter>, b: seq<Setter>)
    ensures ApplyAll(ApplyAll(o, a), b) == ApplyAll(o, a + b)
    decreases |a|
  {
    if |a| > 0 {
      ApplyAllConcat(Apply(o, a[0]), a[1..], b);
      assert (a + b)[1..] == a[1..] + b;
    } else {
      assert a + b == b;
    }
  }

  function NewOptions(opts: seq<Setter>, extensions: seq<Setter>): (r: Options)
    ensures r == ApplyAll(Defaults(), opts + extensions)
  {
    ApplyAllConcat(Defaults(), opts, extensions);
    ApplyAll(ApplyAll(Defaults(), opts), extensions)
  }

  /** The last setter of a field decides it: whatever runs before it is
      overwritten and nothing after it touches the field. */
  lemma {:induction false} LastWriterWins(o: Options, ss: seq<Setter>, i: int)
    requires 0 <= i < |ss|
    requires forall j :: i < j < |ss| ==> FieldOf(ss[j]) != FieldOf(ss[i])
    ensures Holds(ApplyAll(o, ss), ss[i])
    decreases |ss|
  {
    if i == 0 {
      Untouched(Apply(o, ss[0]), ss[1..], FieldOf(ss[0]));
      HoldsTransfers(Apply(o, ss[0]), ApplyAll(o, ss), ss[0]);
    } else {
      LastWriterWins(Apply(o, ss[0]), ss[1..], i - 1);
    }
  }

  /** A field no setter in `ss` writes keeps the value it had. */
  lemma {:induction false} Untouched(o: Options, ss: seq<Setter>, f: Field)
    requires forall j :: 0 <= j < |ss| ==> FieldOf(ss[j]) != f
    ensures Same(ApplyAll(o, ss), o, f)
    decreases |ss|
  {
    if |ss| > 0 {
      Untouched(Apply(o, ss[0]), ss[1..], f);
      SameTransitive(ApplyAll(o, ss), Apply(o, ss[0]), o, f);
    }
  }

  lemma SameTransitive(a: Options, b: Options, c: Options, f: Field)
    requires Same(a, b, f) && Same(b, c, f)
    ensures Same(a, c, f)
  {
  }

  lemma HoldsTransfers(a: Options, b: Options, s: Setter)
    requires Holds(a, s) && Same(b, a, FieldOf(s))
    ensures Holds(b, s)
  {
  }

  /** `newOptions` starts from the defaults: a field that no option and no
      extension sets keeps its default value. */
  lemma DefaultsKept(opts: seq<Setter>, extensions: seq<Setter>, f: Field)
    requires forall j :: 0 <= j < |opts + extensions| ==> FieldOf((opts + extensions)[j]) != f
    ensures Same(NewOptions(opts, extensions), Defaults(), f)
    ensures f == SizeField ==> NewOptions(opts, extensions).size == 56
    ensures f == CountField ==> NewOptions(opts, extensions).count == 4
    ensures f == TimeoutField ==> NewOptions(opts, extensions).timeout == 3 * Second
    ensures f == LogField ==> NewOptions(opts, extensions).log == Discard
  {
    Untouched(Defaults(), opts + extensions, f);
  }

  /** Extensions run after the options: the last setter of a field across
      both lists, extensions last, decides its value. */
  lemma NewOptionsLastWriterWins(opts: seq<Setter>, extensions: seq<Setter>, i: int)
    requires 0 <= i < |opts + extensions|
    requires forall j :: i < j < |opts + extensions| ==> FieldOf((opts + extensions)[j]) != FieldOf((opts + extensions)[i])
    ensures Holds(NewOptions(opts, extensions), (opts + extensions)[i])
  {
    LastWriterWins(Defaults(), opts + extensions, i);
  }
}

=== FILE: exchange.dfy ===
/** One request/reply cycle of `echo` in `icmp/icmp.go`: the sequence-number
    guard, the transmit steps, and the receive loop that discards, accepts or
    stops on each inbound datagram. Parsing of IP headers and ICMP messages
    happens in a library outside this model, so each read arrives already
    decoded (or marked as failing to decode). */
module Exchange {
  import opened Wrappers
  import opened GoInt
  import opened Stats

  /** ICMPv4 message types (RFC 792) the receive loop tells apart. */
  const EchoReplyType: int := 0
  const DestinationUnreachableType: int := 3
  const EchoRequestType: int := 8
  const TimeExceededType: int := 11

  /** The largest sequence number an Echo Request can carry. */
  const MaxSequence: int := 65535

  /** An unsigned 16-bit field of an ICMP header, as the parser yields it. */
  type uint16 = x: int | 0 <= x <= MaxSequence

  /** The decoded body of an ICMP message. */
  datatype Body = EchoBody(id: uint16, sequence: uint16) | TimeExceededBody | OtherBody

  /** The ICMP part of a datagram, or `Malformed` when it does not parse. */
  datatype Message = Malformed | Message(kind: int, body: Body)

  /** What one pass of the receive loop observes: the context already done,
      a failed read, an IP header that does not parse, or a datagram with its
      source address, header TTL and the time elapsed since the send. */
  datatype Read =
    | ContextDone
    | ReadTimeout
    | ReadError
    | BadHeader
    | Datagram(src: string, ttl: int, elapsed: int, msg: Message)

  /** How far dialling, marshalling and writing the request got. */
  datatype Transmit = Sent | DialError | MarshalError | WriteError | ShortWrite

  datatype EchoError =
    | InvalidSequence
    | DialFail
    | MarshalFail
    | SendFail
    | SendIncomplete
    | Canceled
    | RequestTimeout(sequence: int)
    | ReadFail
    | HeaderParseFail
    | MessageParseFail
    | BadReplyData
    | DestinationUnreachable(sequence: int)
    | TimeExceeded
    | UnexpectedType(sequence: int)

  /** What the receive loop does with one read. */
  datatype Verdict = Discard | Accept(stat: EchoStat) | Stop(error: EchoError)

  /** A read the loop skips: a datagram from another host, an Echo Request,
      or an Echo Reply for some other sequence number. */
  predicate Ignored(sequence: int, addr: string, r: Read) {
    && r.Datagram?
    && (|| r.src != addr
        || (&& r.msg.Message?
            && (|| r.msg.kind == EchoRequestType
                || (r.msg.kind == EchoReplyType && r.msg.body.EchoBody? && r.msg.body.sequence != sequence))))
  }

  /** A read that answers the request: an Echo Reply from the target
      carrying the sequence number sent, whatever its identifier. */
  predicate Matches(sequence: int, addr: string, r: Read) {
    && r.Datagram?
    && r.src == addr
    && r.msg.Message?
    && r.msg.kind == EchoReplyType
    && r.msg.body.EchoBody?
    && r.msg.body.sequence == sequence
  }

  function Classify(sequence: int, addr: string, r: Read): (v: Verdict)
    ensures v.Discard? <==> Ignored(sequence, addr, r)
    ensures v.Accept? <==> Matches(sequence, addr, r)
    ensures v.Accept? ==> v.stat == EchoStat(sequence, r.ttl, r.elapsed)
    // The errors that do not come from a datagram name their read exactly.
    ensures v == Stop(Canceled) <==> r == ContextDone
    ensures v == Stop(RequestTimeout(sequence)) <==> r == ReadTimeout
    ensures v == Stop(ReadFail) <==> r == ReadError
    ensures v == Stop(HeaderParseFail) <==> r == BadHeader
    ensures v == Stop(MessageParseFail) <==> r.Datagram? && r.src == addr && r.msg.Malformed?
  {
    match r
    case ContextDone => Stop(Canceled)
    case ReadTimeout => Stop(RequestTimeout(sequence))
    case ReadError => Stop(ReadFail)
    case BadHeader => Stop(HeaderParseFail)
    case Datagram(src, ttl, elapsed, msg) =>
      if src != addr then Discard
      else
        match msg
        case Malformed => Stop(MessageParseFail)
        case Message(kind, body) =>
          if kind == EchoRequestType then Discard
          else if kind == EchoReplyType then
            if !body.EchoBody? then Stop(BadReplyData)
            // The identifier is compared with itself, so only the sequence decides.
            else if body.id != body.id || sequence != body.sequence then Discard
            else Accept(EchoStat(body.sequence, ttl, elapsed))
          else if kind == DestinationUnreachableType then Stop(DestinationUnreachable(sequence))
          else if kind == TimeExceededType then
            if body.TimeExceededBody? then Stop(TimeExceeded) else Stop(BadReplyData)
          else Stop(UnexpectedType(sequence))
  }

  /** The receive loop over the reads the socket delivers before the
      deadline; running out of reads is the deadline passing. */
  function Receive(sequence: int, addr: string, inbound: seq<Read>): (r: Result<EchoStat, EchoError>)
    decreases |inbound|
    ensures r.Success? ==> r.value.sequence == sequence && 0 <= sequence <= MaxSequence
    ensures r != Failure(InvalidSequence)
    ensures r.Success? ==> exists i :: 0 <= i < |inbound| && Matches(sequence, addr, inbound[i]) && r.value.ttl == inbound[i].ttl
  {
    if |inbound| == 0 then Failure(RequestTimeout(sequence))
    else
      match Classify(sequence, addr, inbound[0])
      case Discard =>
        var rest := Receive(sequence, addr, inbound[1..]);
        assert rest.Success? ==> exists i :: 0 <= i < |inbound| - 1 && Matches(sequence, addr, inbound[1..][i]) && rest.value.ttl == inbound[1..][i].ttl;
        rest
      case Accept(st) => Success(st)
      case Stop(e) => Failure(e)
  }

  /** The reads before index `i` are all skipped and read `i` matches. */
  ghost predicate AcceptedAt(sequence: int, addr: string, inbound: seq<Read>, i: int) {
    && 0 <= i < |inbound|
    && (forall j :: 0 <= j < i ==> Ignored(sequence, addr, inbound[j]))
    && Matches(sequence, addr, inbound[i])
  }

  /** The receive loop succeeds exactly when some read matches after only
      skipped ones, and then reports that read's TTL and elapsed time. */
  lemma {:induction false} ReceiveSucceedsIff(sequence: int, addr: string, inbound: seq<Read>, st: EchoStat)
    ensures Receive(sequence, addr, inbound) == Success(st) <==>
      exists i :: AcceptedAt(sequence, addr, inbound, i) && st == EchoStat(sequence, inbound[i].ttl, inbound[i].elapsed)
    decreases |inbound|
  {
    if |inbound| > 0 {
      var tail := inbound[1..];
      ReceiveSucceedsIff(sequence, addr, tail, st);
      if Classify(sequence, addr, inbound[0]).Discard? {
        if Receive(sequence, addr, inbound) == Success(st) {
          var i :| AcceptedAt(sequence, addr, tail, i) && st == EchoStat(sequence, tail[i].ttl, tail[i].elapsed);
          assert AcceptedAt(sequence, addr, inbound, i + 1);
        }
        if exists i :: AcceptedAt(sequence, addr, inbound, i) && st == EchoStat(sequence, inbound[i].ttl, inbound[i].elapsed) {
          var i :| AcceptedAt(sequence, addr, inbound, i) && st == EchoStat(sequence, inbound[i].ttl, inbound[i].elapsed);
          assert i != 0;
          assert AcceptedAt(sequence, addr, tail, i - 1);
        }
      } else {
        if exists i :: AcceptedAt(sequence, addr, inbound, i) && st == EchoStat(sequence, inbound[i].ttl, inbound[i].elapsed) {
          var i :| AcceptedAt(sequence, addr, inbound, i) && st == EchoStat(sequence, inbound[i].ttl, inbound[i].elapsed);
          assert i == 0;
        }
      }
    }
  }

  /** Every read in `inbound` is one the loop skips. */
  ghost predicate AllIgnored(sequence: int, addr: string, inbound: seq<Read>) {
    forall j :: 0 <= j < |inbound| ==> Ignored(sequence, addr, inbound[j])
  }

  /** The reads before index `i` are all skipped and read `i` stops the loop
      with error `e`. */
  ghost predicate StoppedAt(sequence: int, addr: string, inbound: seq<Read>, i: int, e: EchoError) {
    && 0 <= i < |inbound|
    && (forall j :: 0 <= j < i ==> Ignored(sequence, addr, inbound[j]))
    && Classify(sequence, addr, inbound[i]) == Stop(e)
  }

  /** The receive loop fails with `e` exactly when the first read it does
      not skip stops it with `e`, or, for the timeout error, when it skips
      every read until the deadline. */
  lemma {:induction false} ReceiveFailsIff(sequence: int, addr: string, inbound: seq<Read>, e: EchoError)
    ensures Receive(sequence, addr, inbound) == Failure(e) <==>
      (exists i :: StoppedAt(sequence, addr, inbound, i, e))
      || (e == RequestTimeout(sequence) && AllIgnored(sequence, addr, inbound))
    decreases |inbound|
  {
    if |inbound| > 0 {
      var tail := inbound[1..];
      ReceiveFailsIff(sequence, addr, tail, e);
      var v := Classify(sequence, addr, inbound[0]);
      if v.Discard? {
        if exists i :: StoppedAt(sequence, addr, tail, i, e) {
          var i :| StoppedAt(sequence, addr, tail, i, e);
          assert StoppedAt(sequence, addr, inbound, i + 1, e);
        }
        if exists i :: StoppedAt(sequence, addr, inbound, i, e) {
          var i :| StoppedAt(sequence, addr, inbound, i, e);
          assert i != 0;
          assert StoppedAt(sequence, addr, tail, i - 1, e);
        }
        if AllIgnored(sequence, addr, tail) {
          assert AllIgnored(sequence, addr, inbound) by {
            forall j | 0 <= j < |inbound| ensures Ignored(sequence, addr, inbound[j]) {
              if j > 0 { assert inbound[j] == tail[j - 1]; }
            }
          }
        }
        if AllIgnored(sequence, addr, inbound) {
          assert AllIgnored(sequence, addr, tail) by {
            forall j | 0 <= j < |tail| ensures Ignored(sequence, addr, tail[j]) {
              assert tail[j] == inbound[j + 1];
            }
          }
        }
      } else {
        assert !Ignored(sequence, addr, inbound[0]);
        assert !AllIgnored(sequence, addr, inbound);
        if exists i :: StoppedAt(sequence, addr, inbound, i, e) {
          var i :| StoppedAt(sequence, addr, inbound, i, e);
          assert i == 0;
        }
        if v.Stop? && v.error == e {
          assert StoppedAt(sequence, addr, inbound, 0, e);
        }
      }
    }
  }

  /** The loop reports cancellation exactly when it meets the context's
      done signal before any read it does not skip. */
  lemma CanceledIff(sequence: int, addr: string, inbound: seq<Read>)
    ensures Receive(sequence, addr, inbound) == Failure(Canceled) <==>
      exists i :: 0 <= i < |inbound| && (forall j :: 0 <= j < i ==> Ignored(sequence, addr, inbound[j])) && inbound[i] == ContextDone
  {
    ReceiveFailsIff(sequence, addr, inbound, Canceled);
    if exists i :: 0 <= i < |inbound| && (forall j :: 0 <= j < i ==> Ignored(sequence, addr, inbound[j])) && inbound[i] == ContextDone {
      var i :| 0 <= i < |inbound| && (forall j :: 0 <= j < i ==> Ignored(sequence, addr, inbound[j])) && inbound[i] == ContextDone;
      assert StoppedAt(sequence, addr, inbound, i, Canceled);
    }
  }

  /** The loop times out exactly when a read deadline error comes before any
      read it does not skip, or when every read is skipped. */
  lemma TimedOutIff(sequence: int, addr: string, inbound: seq<Read>)
    ensures Receive(sequence, addr, inbound) == Failure(RequestTimeout(sequence)) <==>
      || AllIgnored(sequence, addr, inbound)
      || exists i :: 0 <= i < |inbound| && (forall j :: 0 <= j < i ==> Ignored(sequence, addr, inbound[j])) && inbound[i] == ReadTimeout
  {
    ReceiveFailsIff(sequence, addr, inbound, RequestTimeout(sequence));
    if exists i :: 0 <= i < |inbound| && (forall j :: 0 <= j < i ==> Ignored(sequence, addr, inbound[j])) && inbound[i] == ReadTimeout {
      var i :| 0 <= i < |inbound| && (forall j :: 0 <= j < i ==> Ignored(sequence, addr, inbound[j])) && inbound[i] == ReadTimeout;
      assert StoppedAt(sequence, addr, inbound, i, RequestTimeout(sequence));
    }
  }

  /** A stream of skipped reads only ends in the timeout. */
  lemma AllSkippedTimesOut(sequence: int, addr: string, inbound: seq<Read>)
    requires AllIgnored(sequence, addr, inbound)
    ensures Receive(sequence, addr, inbound) == Failure(RequestTimeout(sequence))
  {
    SkippedReadsVanish(sequence, addr, inbound, []);
    assert inbound + [] == inbound;
  }

  /** Skipped reads leave no trace: a stale reply, another host's datagram
      or an Echo Request in front changes nothing about the outcome. */
  lemma {:induction false} SkippedReadsVanish(sequence: int, addr: string, skipped: seq<Read>, rest: seq<Read>)
    requires forall j :: 0 <= j < |skipped| ==> Ignored(sequence, addr, skipped[j])
    ensures Receive(sequence, addr, skipped + rest) == Receive(sequence, addr, rest)
    decreases |skipped|
  {
    if |skipped| > 0 {
      assert (skipped + rest)[0] == skipped[0];
      assert (skipped + rest)[1..] == skipped[1..] + rest;
      SkippedReadsVanish(sequence, addr, skipped[1..], rest);
    } else {
      assert skipped + rest == rest;
    }
  }

  /** `inbound` with the identifier of every Echo body replaced by `id`. */
  function Relabel(inbound: seq<Read>, id: uint16): (out: seq<Read>)
    ensures |out| == |inbound|
    ensures forall i :: 0 <= i < |inbound| ==> out[i] == RelabelRead(inbound[i], id)
  {
    if |inbound| == 0 then [] else [RelabelRead(inbound[0], id)] + Relabel(inbound[1..], id)
  }

  function RelabelRead(r: Read, id: uint16): Read {
    if r.Datagram? && r.msg.Message? && r.msg.body.EchoBody?
    then r.(msg := r.msg.(body := r.msg.body.(id := id)))
    else r
  }

  /** The identifier of a reply is never consulted: any other identifier in
      every reply leads to the same outcome, so replies to a concurrent
      session with the same sequence number are accepted too. */
  lemma {:induction false} IdentifierNeverChecked(sequence: int, addr: string, inbound: seq<Read>, id: uint16)
    ensures Receive(sequence, addr, Relabel(inbound, id)) == Receive(sequence, addr, inbound)
    decreases |inbound|
  {
    if |inbound| > 0 {
      var out := Relabel(inbound, id);
      assert out[0] == RelabelRead(inbound[0], id);
      assert out[1..] == Relabel(inbound[1..], id);
      IdentifierNeverChecked(sequence, addr, inbound[1..], id);
    }
  }

  /** A datagram from the target that is neither an Echo Request nor a
      matching or stale Echo Reply ends the loop with an error, whatever
      follows it. */
  lemma ErrorTypesTerminate(sequence: int, addr: string, d: Read, rest: seq<Read>)
    requires d.Datagram? && d.src == addr && d.msg.Message?
    requires d.msg.kind != EchoRequestType
    requires d.msg.kind != EchoReplyType || !d.msg.body.EchoBody?
    ensures Receive(sequence, addr, [d] + rest).Failure?
    ensures d.msg.kind == EchoReplyType ==> Receive(sequence, addr, [d] + rest) == Failure(BadReplyData)
    ensures d.msg.kind == DestinationUnreachableType ==> Receive(sequence, addr, [d] + rest) == Failure(DestinationUnreachable(sequence))
  {
    assert ([d] + rest)[0] == d;
  }

  /** One echo: reject an out-of-range sequence number before touching the
      network, then transmit, then run the receive loop. The request's
      identifier and payload only shape the bytes sent, which are not
      modelled. */
  function Echo(addr: string, sequence: int, transmit: Transmit, inbound: seq<Read>): (r: Result<EchoStat, EchoError>)
    ensures sequence > MaxSequence ==> r == Failure(InvalidSequence)
    ensures r.Success? ==> transmit == Sent && 0 <= sequence <= MaxSequence && r.value.sequence == sequence
    ensures sequence <= MaxSequence ==> r != Failure(InvalidSequence)
    ensures transmit != Sent ==> r.Failure?
    ensures transmit == Sent && sequence <= MaxSequence ==> r == Receive(sequence, addr, inbound)
  {
    if sequence > MaxSequence then Failure(InvalidSequence)
    else
      match transmit
      case DialError => Failure(DialFail)
      case MarshalError => Failure(MarshalFail)
      case WriteError => Failure(SendFail)
      case ShortWrite => Failure(SendIncomplete)
      case Sent => Receive(sequence, addr, inbound)
  }

  /** An echo succeeds with `st` exactly when its sequence passes the guard,
      the request went out, and some reply matches after only skipped reads;
      `st` then carries that reply's TTL and elapsed time. */
  lemma EchoSucceedsIff(addr: string, sequence: int, transmit: Transmit, inbound: seq<Read>, st: EchoStat)
    ensures Echo(addr, sequence, transmit, inbound) == Success(st) <==>
      && transmit == Sent
      && sequence <= MaxSequence
      && exists i :: AcceptedAt(sequence, addr, inbound, i) && st == EchoStat(sequence, inbound[i].ttl, inbound[i].elapsed)
  {
    ReceiveSucceedsIff(sequence, addr, inbound, st);
  }

  /** The exported `Echo`, which derives the sequence number from the clock
      reading `now` with Go's remainder and so never trips the guard. A clock
      before 1970 gives a negative sequence, which no parsed reply carries,
      so such an echo can only fail. */
  function EchoAt(now: int, addr: string, transmit: Transmit, inbound: seq<Read>): (r: Result<EchoStat, EchoError>)
    ensures r != Failure(InvalidSequence)
    ensures r.Success? ==> r.value.sequence == Rem(now, MaxSequence + 1)
    ensures r.Success? ==> 0 <= r.value.sequence <= MaxSequence
    ensures Rem(now, MaxSequence + 1) < 0 ==> r.Failure?
  {
    Echo(addr, Rem(now, MaxSequence + 1), transmit, inbound)
  }
}

=== FILE: goint.dfy ===
/** The pieces of Go integer semantics the model relies on. Dafny's `int` is
    unbounded and its `/` and `%` are Euclidean, so Go's truncating division
    and the `math.MaxInt64` constant are written out here. */
module GoInt {

  /** `math.MaxInt64`, also the largest `time.Duration`. */
  const MaxInt64: int := 0x7FFF_FFFF_FFFF_FFFF

  /** How many times `b` fits into `a`, counted by repeated subtraction. */
  function Fits(a: nat, b: nat): nat
    requires b > 0
    decreases a
  {
    if a < b then 0 else 1 + Fits(a - b, b)
  }

  /** Go's `a / b` on signed integers: the quotient truncated toward zero. */
  function Quot(a: int, b: int): int
    requires b > 0
  {
    if a >= 0 then Fits(a, b) else 0 - Fits(-a, b)
  }

  /** `Fits` leaves a remainder smaller than the divisor. */
  lemma {:induction false} FitsBounds(a: nat, b: nat)
    requires b > 0
    ensures 0 <= Fits(a, b) * b <= a < Fits(a, b) * b + b
    decreases a
  {
    if a >= b {
      FitsBounds(a - b, b);
      assert Fits(a, b) * b == Fits(a - b, b) * b + b;
    }
  }

  /** The truncated quotient is the multiple of `b` nearest zero that does
      not pass `a`. */
  lemma QuotBounds(a: int, b: int)
    requires b > 0
    ensures var q := Quot(a, b);
      && (0 <= a ==> 0 <= q * b <= a < q * b + b)
      && (a < 0 ==> q * b - b < a <= q * b <= 0)
  {
    if a >= 0 {
      FitsBounds(a, b);
    } else {
      FitsBounds(-a, b);
    }
  }

  /** Two products with the same positive factor compare as their other
      factors do. */
  lemma MulLess(a: int, b: int, n: int)
    requires n > 0 && a * n < b * n
    ensures a < b
  {
  }

  /** A non-negative `q` whose multiple of `b` leaves a remainder in
      `[0, b)` of a non-negative `a` is the truncated quotient. */
  lemma QuotUnique(a: int, b: int, q: int)
    requires 0 <= a && 0 <= q && b > 0
    requires q * b <= a < q * b + b
    ensures Quot(a, b) == q
  {
    var p := Quot(a, b);
    QuotBounds(a, b);
    assert p * b < (q + 1) * b;
    MulLess(p, q + 1, b);
    assert q * b < (p + 1) * b;
    MulLess(q, p + 1, b);
  }

  /** Go's `a % b` on signed integers: the remainder takes the sign of `a`. */
  function Rem(a: int, b: int): (r: int)
    requires b > 0
    ensures 0 <= a ==> 0 <= r < b
    ensures a < 0 ==> -b < r <= 0
  {
    QuotBounds(a, b);
    a - Quot(a, b) * b
  }

  /** Any `r` that differs from `a` by a multiple of `b` and lies in the
      range of its sign is the remainder Go's `%` yields. */
  lemma RemUnique(a: int, b: int, q: int, r: int)
    requires b > 0 && a == q * b + r
    requires 0 <= a ==> 0 <= r < b
    requires a < 0 ==> -b < r <= 0
    ensures Rem(a, b) == r
  {
    if a >= 0 {
      assert -1 * b < q * b;
      MulLess(-1, q, b);
      QuotUnique(a, b, q);
    } else {
      assert -a == (-q) * b + (-r);
      assert -1 * b < (-q) * b;
      MulLess(-1, -q, b);
      QuotUnique(-a, b, -q);
    }
  }

  /** Go's `%` on a few operands of either sign. */
  lemma RemExamples()
    ensures Rem(5, 3) == 2 && Rem(-5, 3) == -2
    ensures Rem(70000, 65536) == 4464 && Rem(-1, 65536) == -1
  {
  }
}

=== FILE: session.dfy ===
/** The session level of `icmp/icmp.go`: resolving the host, building the
    pinger, and the `ping` loop that runs one echo per sequence number and
    feeds each outcome to the statistics. DNS, the clock, the pid and the
    network are parameters: the resolver's answer, a random draw, and for
    every sequence number the attempt the network makes of that echo. */
module Session {
  import opened Wrappers
  import opened GoInt
  import opened Stats
  import opened Config
  import opened Exchange

  datatype LookupError = ResolveError | UnknownHost

  /** `Lookup`, given what the resolver answered (`None` when resolution
      itself failed) and the random draw that picks among the addresses. */
  function Lookup(answer: Option<seq<string>>, draw: nat): (r: Result<string, LookupError>)
    ensures r.Success? ==> answer.Some? && r.value in answer.value
    ensures r.Failure? <==> answer.None? || |answer.value| == 0
    ensures answer.None? ==> r == Failure(ResolveError)
  {
    match answer
    case None => Failure(ResolveError)
    case Some(addrs) =>
      if |addrs| == 0 then Failure(UnknownHost) else Success(addrs[draw % |addrs|])
  }

  /** Every resolved address is the one chosen for some draw. */
  lemma LookupCanChooseAny(addrs: seq<string>, i: nat)
    requires i < |addrs|
    ensures Lookup(Some(addrs), i) == Success(addrs[i])
  {
  }

  /** The `ICMP` value: its options and its 16-bit identifier. */
  datatype Pinger = Pinger(opts: Options, id: int)

  /** `New`, with the process id as a parameter; the identifier keeps the
      low 16 bits of it. */
  function New(setters: seq<Setter>, pid: int): (p: Pinger)
    ensures 0 <= p.id <= 0xFFFF
    ensures (pid - p.id) % 0x1_0000 == 0
    ensures 0 <= pid <= 0xFFFF ==> p.id == pid
    ensures p.opts == ApplyAll(Defaults(), setters)
  {
    assert setters + [] == setters;
    Pinger(NewOptions(setters, []), pid % 0x1_0000)
  }

  /** What the network does with the echo of one sequence number. */
  datatype Attempt = Attempt(transmit: Transmit, inbound: seq<Read>)

  datatype PingError = LookupFailed(LookupError) | EchoFailed(EchoError)

  /** The outcome of the echo for every sequence number a session may use. */
  type Echoes = nat -> Result<EchoStat, EchoError>

  /** The echo outcomes against `addr` when the network behaves as `env`. */
  function EchoesTo(addr: string, env: nat -> Attempt): Echoes {
    (k: nat) => Echo(addr, k, env(k).transmit, env(k).inbound)
  }

  /** The `*EchoStat` values of the first `n` echoes, nil for failures. */
  function Samples(echoes: Echoes, n: nat): (s: seq<Option<EchoStat>>)
    ensures |s| == n
  {
    if n == 0 then [] else Samples(echoes, n - 1) + [echoes(n - 1).ToOption()]
  }

  /** Sample `k` is the outcome of echo `k`, nil when it failed. */
  lemma {:induction false} SampleAt(echoes: Echoes, n: nat, k: nat)
    requires k < n
    ensures Samples(echoes, n)[k] == echoes(k).ToOption()
    decreases n
  {
    if k < n - 1 {
      SampleAt(echoes, n - 1, k);
    }
  }

  /** The error `ping` hands back after an echo with outcome `r`. */
  function EchoErr(r: Result<EchoStat, EchoError>): Option<PingError> {
    match r
    case Success(_) => None
    case Failure(e) => Some(EchoFailed(e))
  }

  /** The context reports done at the top of iteration `k`: from
      `cancelAt` on it stays done. */
  predicate CancelledBy(cancelAt: Option<nat>, k: nat) {
    cancelAt.Some? && cancelAt.value <= k
  }

  /** The check at the top of iteration `k` lets echo `k` run: the count is
      not reached, the context was not cancelled, and the previous echo did
      not itself observe the cancellation. */
  predicate Proceeds(count: int, cancelAt: Option<nat>, echoes: Echoes, k: nat) {
    && k < count
    && !CancelledBy(cancelAt, k)
    && !(k > 0 && echoes(k - 1) == Failure(Canceled))
  }

  /** The loop ran exactly `n` echoes: every check before passed, check `n` failed. */
  predicate Ran(count: int, cancelAt: Option<nat>, echoes: Echoes, n: nat) {
    && (forall k: nat :: k < n ==> Proceeds(count, cancelAt, echoes, k))
    && !Proceeds(count, cancelAt, echoes, n)
  }

  /** `ping`: resolve the host, then run the echo loop; on a failed lookup
      the initial statistics come back untouched with the lookup's error. */
  method Ping(p: Pinger, host: string, answer: Option<seq<string>>, draw: nat,
              cancelAt: Option<nat>, env: nat -> Attempt)
    returns (stats: Statistics, err: Option<PingError>)
    ensures Lookup(answer, draw).Failure? ==>
      stats == Initial(host) && err == Some(LookupFailed(Lookup(answer, draw).error))
    ensures Lookup(answer, draw).Success? ==>
      var echoes := EchoesTo(Lookup(answer, draw).value, env);
      var n := stats.transmitted;
      && Ran(p.opts.count, cancelAt, echoes, n)
      && stats == Aggregate(Initial(host), Samples(echoes, n))
      && stats.received <= n
      && err == (if n == 0 then None else EchoErr(echoes(n - 1)))
  {
    var found := Lookup(answer, draw);
    if found.Failure? {
      return Initial(host), Some(LookupFailed(found.error));
    }
    stats, err := Loop(p.opts.count, host, cancelAt, EchoesTo(found.value, env));
    RunIsAggregate(host, EchoesTo(found.value, env), stats.transmitted);
  }

  /** The loop of `ping`: run echoes `0, 1, …` until the count is reached or
      the context is done, accounting each outcome; the error returned is the
      last echo's. */
  method Loop(count: int, host: string, cancelAt: Option<nat>, echoes: Echoes)
    returns (stats: Statistics, err: Option<PingError>)
    ensures Ran(count, cancelAt, echoes, stats.transmitted)
    ensures stats == Run(host, echoes, stats.transmitted)
    ensures stats.received <= stats.transmitted
    ensures err == (if stats.transmitted == 0 then None else EchoErr(echoes(stats.transmitted - 1)))
  {
    stats := Initial(host);
    err := None;
    var sequence: nat := 0;
    var done := false;
    while sequence < count
      invariant stats == Run(host, echoes, sequence)
      invariant stats.transmitted == sequence && stats.received <= sequence
      invariant forall k: nat :: k < sequence ==> Proceeds(count, cancelAt, echoes, k)
      invariant done <==> sequence > 0 && echoes(sequence - 1) == Failure(Canceled)
      invariant err == (if sequence == 0 then None else EchoErr(echoes(sequence - 1)))
      decreases count - sequence
    {
      if done || CancelledBy(cancelAt, sequence) {
        Blocked(count, cancelAt, echoes, sequence);
        break;
      }
      ProceedsExtend(count, cancelAt, echoes, sequence);
      stats, err, done := Step(host, echoes, sequence, stats);
      sequence := sequence + 1;
    }
    Blocked(count, cancelAt, echoes, sequence);
  }

  /** One iteration of the loop of `ping`: run echo `sequence`, account its
      outcome, and note whether it saw the cancellation. */
  method Step(host: string, echoes: Echoes, sequence: nat, prior: Statistics)
    returns (stats: Statistics, err: Option<PingError>, done: bool)
    requires prior == Run(host, echoes, sequence)
    requires prior.transmitted == sequence && prior.received <= sequence
    ensures stats == Run(host, echoes, sequence + 1)
    ensures stats.transmitted == sequence + 1 && stats.received <= sequence + 1
    ensures err == EchoErr(echoes(sequence))
    ensures done <==> echoes(sequence) == Failure(Canceled)
  {
    var result := echoes(sequence);
    stats := Update(prior, result.ToOption());
    err := EchoErr(result);
    done := result == Failure(Canceled);
  }

  /** The statistics after the first `n` echoes, each accounted in turn. */
  function Run(host: string, echoes: Echoes, n: nat): Statistics {
    if n == 0 then Initial(host) else Update(Run(host, echoes, n - 1), echoes(n - 1).ToOption())
  }

  /** Accounting the echoes one at a time is the fold of `update` over
      their samples. */
  lemma {:induction false} RunIsAggregate(host: string, echoes: Echoes, n: nat)
    ensures Run(host, echoes, n) == Aggregate(Initial(host), Samples(echoes, n))
  {
    if n > 0 {
      RunIsAggregate(host, echoes, n - 1);
      AggregateSnoc(Initial(host), Samples(echoes, n - 1), echoes(n - 1).ToOption());
    }
  }

  /** A passing check at `m` extends the run of passing checks by one. */
  lemma ProceedsExtend(count: int, cancelAt: Option<nat>, echoes: Echoes, m: nat)
    requires forall k: nat :: k < m ==> Proceeds(count, cancelAt, echoes, k)
    requires Proceeds(count, cancelAt, echoes, m)
    ensures forall k: nat :: k < m + 1 ==> Proceeds(count, cancelAt, echoes, k)
  {
  }

  /** No check passes once the count is reached, the context is done, or
      the previous echo saw the cancellation. */
  lemma Blocked(count: int, cancelAt: Option<nat>, echoes: Echoes, m: nat)
    requires m >= count || CancelledBy(cancelAt, m) || (m > 0 && echoes(m - 1) == Failure(Canceled))
    ensures !Proceeds(count, cancelAt, echoes, m)
  {
  }

  /** Without cancellation the loop runs the full count: one echo, and so
      one `update`, for each of the sequence numbers `0 .. count-1`. */
  lemma RunsFullCount(count: int, echoes: Echoes, n: nat)
    requires count >= 0
    requires forall k: nat :: k < count ==> echoes(k) != Failure(Canceled)
    requires Ran(count, None, echoes, n)
    ensures n == count
  {
    if n < count {
      assert false;
    } else if n > count {
      Blocked(count, None, echoes, count);
      assert false;
    }
  }

  /** A count of zero or less, such as a negative `Count(n)` stores, runs no
      echo at all: the statistics stay the initial ones and no error comes
      back. */
  lemma NegativeCountRunsNothing(host: string, count: int, cancelAt: Option<nat>, echoes: Echoes, n: nat)
    requires count <= 0
    requires Ran(count, cancelAt, echoes, n)
    ensures n == 0
    ensures Run(host, echoes, n) == Initial(host)
  {
    Blocked(count, cancelAt, echoes, 0);
  }

  /** Cancellation seen at the top of iteration `k` stops the loop there,
      before that echo is sent or accounted. */
  lemma StopsAtCancellation(count: int, k: nat, echoes: Echoes, n: nat)
    requires k <= count
    requires forall j: nat :: j < k ==> echoes(j) != Failure(Canceled)
    requires Ran(count, Some(k), echoes, n)
    ensures n == k
  {
    if n < k {
      assert false;
    } else if n > k {
      Blocked(count, Some(k), echoes, k);
      assert false;
    }
  }

  /** Sequence numbers do not wrap: from 65536 on, every echo fails the
      guard without reaching the network, so an unbounded session records
      only loss from then on. */
  lemma NoWrapAround(addr: string, env: nat -> Attempt, n: nat)
    ensures forall k :: MaxSequence < k < n ==> Samples(EchoesTo(addr, env), n)[k].None?
    ensures forall k :: 0 <= k < n && Samples(EchoesTo(addr, env), n)[k].Some? ==> Samples(EchoesTo(addr, env), n)[k].value.sequence == k
  {
    var samples := Samples(EchoesTo(addr, env), n);
    forall k | 0 <= k < n
      ensures MaxSequence < k ==> samples[k].None?
      ensures samples[k].Some? ==> samples[k].value.sequence == k
    {
      SampleAt(EchoesTo(addr, env), n, k);
      var r := Echo(addr, k, env(k).transmit, env(k).inbound);
      assert samples[k] == r.ToOption();
    }
  }

  /** `Count(0)` as the last setter makes the session unbounded: its count
      is `MaxInt64`. */
  lemma UnboundedCount(setters: seq<Setter>, pid: int)
    requires |setters| > 0 && setters[|setters| - 1] == Count(0)
    ensures New(setters, pid).opts.count == MaxInt64
  {
    LastWriterWins(Defaults(), setters, |setters| - 1);
  }
}

=== FILE: stats.dfy ===
/** The statistics aggregator of `icmp/statistics.go`: one `Update` per echo
    attempt, folded over a session, and the report `Print` renders from it.
    Durations are whole nanoseconds; `Loss` is kept as the exact fraction
    that Go approximates with a `float64`. */
module Stats {
  import opened Wrappers
  import opened GoInt

  /** What a matched Echo Reply yields: its sequence number, the TTL of the
      IP header it came in, and the elapsed time since the request was sent. */
  datatype EchoStat = EchoStat(sequence: int, ttl: int, cost: int)

  /** The exact value `num / den` of a floating-point quotient. */
  datatype Fraction = Fraction(num: int, den: int) {

    /** The fraction stands for the whole number `v`. */
    predicate Is(v: int) {
      num == v * den
    }
  }

  /** The running statistics of one session. The mean deviation, computed in
      floating point with a square root, is not part of this model. */
  datatype Statistics = Statistics(
    host: string,
    transmitted: nat,
    received: nat,
    loss: Fraction,
    time: int,
    timeExp2: int,
    minRTT: int,
    avgRTT: int,
    maxRTT: int)

  /** The statistics `ping` starts from: the minimum holds the `MaxInt64`
      sentinel and the loss is 100 percent. */
  function Initial(host: string): Statistics {
    Statistics(host, 0, 0, Fraction(100, 1), 0, 0, MaxInt64, 0, 0)
  }

  /** Loss percentage of `transmitted` echoes of which `received` came back. */
  function LossOf(transmitted: nat, received: nat): Fraction {
    Fraction((transmitted - received) * 100, transmitted)
  }

  /** Once something was transmitted, the loss is 0 percent exactly when
      everything came back, 100 percent when nothing did, and otherwise lies
      between the two. */
  lemma LossOfMeaning(transmitted: nat, received: nat)
    requires transmitted > 0
    ensures LossOf(transmitted, received).Is(0) <==> received == transmitted
    ensures LossOf(transmitted, received).Is(100) <==> received == 0
    ensures received <= transmitted ==>
      0 <= LossOf(transmitted, received).num <= 100 * LossOf(transmitted, received).den
  {
  }

  /** Account for one echo attempt; `stat` is `None` when the echo failed. */
  function Update(s: Statistics, stat: Option<EchoStat>): (r: Statistics)
    ensures r.host == s.host
    ensures r.transmitted == s.transmitted + 1
    ensures r.loss == LossOf(r.transmitted, r.received)
    // A failed echo changes nothing but the two counters of loss.
    ensures stat.None? ==> r == s.(transmitted := r.transmitted, loss := r.loss)
    ensures stat.Some? ==>
      var c := stat.value.cost;
      && r.received == s.received + 1
      && r.time == s.time + c
      && r.timeExp2 == s.timeExp2 + c * c
      && r.minRTT <= s.minRTT && r.minRTT <= c && (r.minRTT == s.minRTT || r.minRTT == c)
      && r.maxRTT >= s.maxRTT && r.maxRTT >= c && (r.maxRTT == s.maxRTT || r.maxRTT == c)
      && r.avgRTT == Quot(r.time, r.received)
  {
    var transmitted := s.transmitted + 1;
    match stat
    case None =>
      s.(transmitted := transmitted, loss := LossOf(transmitted, s.received))
    case Some(st) =>
      var received := s.received + 1;
      var time := s.time + st.cost;
      s.(transmitted := transmitted,
         received := received,
         time := time,
         timeExp2 := s.timeExp2 + st.cost * st.cost,
         minRTT := if s.minRTT > st.cost then st.cost else s.minRTT,
         avgRTT := Quot(time, received),
         maxRTT := if s.maxRTT < st.cost then st.cost else s.maxRTT,
         loss := LossOf(transmitted, received))
  }

  /** The statistics after feeding `outs` to `Update` one after the other. */
  function Aggregate(s: Statistics, outs: seq<Option<EchoStat>>): (r: Statistics)
    decreases |outs|
    ensures r.host == s.host
    ensures r.transmitted == s.transmitted + |outs|
    ensures r.received <= s.received + |outs|
  {
    if |outs| == 0 then s
    else Update(Aggregate(s, outs[..|outs| - 1]), outs[|outs| - 1])
  }

  /** The costs of the successful echoes among `outs`, in order. */
  function Costs(outs: seq<Option<EchoStat>>): (cs: seq<int>)
    decreases |outs|
    ensures |cs| <= |outs|
    ensures |cs| == |outs| <==> forall i :: 0 <= i < |outs| ==> outs[i].Some?
    ensures |cs| == 0 <==> forall i :: 0 <= i < |outs| ==> outs[i].None?
    ensures forall x :: x in cs <==> exists i :: 0 <= i < |outs| && outs[i].Some? && outs[i].value.cost == x
  {
    if |outs| == 0 then []
    else
      var prefix := outs[..|outs| - 1];
      var last := outs[|outs| - 1];
      assert forall i :: 0 <= i < |prefix| ==> prefix[i] == outs[i];
      Costs(prefix) + (if last.Some? then [last.value.cost] else [])
  }

  function Sum(xs: seq<int>): int
    decreases |xs|
  {
    if |xs| == 0 then 0 else Sum(xs[..|xs| - 1]) + xs[|xs| - 1]
  }

  function SumSquares(xs: seq<int>): int
    decreases |xs|
  {
    if |xs| == 0 then 0 else SumSquares(xs[..|xs| - 1]) + xs[|xs| - 1] * xs[|xs| - 1]
  }

  /** The costs `outs` leaves once `last` has been appended. */
  function Extend(cs: seq<int>, last: Option<EchoStat>): seq<int> {
    cs + (if last.Some? then [last.value.cost] else [])
  }

  /** What `Update` keeps invariant over a whole session started from
      `Initial`, given the costs `cs` of its successful echoes: the counters,
      the two sums over the costs, the extremes against their starting
      values, the truncated average and the loss. */
  ghost predicate Summarises(r: Statistics, transmitted: nat, cs: seq<int>) {
    && r.transmitted == transmitted
    && r.received == |cs|
    && r.time == Sum(cs)
    && r.timeExp2 == SumSquares(cs)
    && Extremes(r, cs)
    && (|cs| == 0 ==> r.avgRTT == 0)
    && (|cs| > 0 ==> r.avgRTT == Quot(Sum(cs), |cs|))
    && (transmitted == 0 ==> r.loss == Fraction(100, 1))
    && (transmitted > 0 ==> r.loss == LossOf(transmitted, |cs|))
  }

  /** `minRTT` and `maxRTT` are the least and greatest of the costs, or the
      values they start from when no cost is below or above those. */
  ghost predicate Extremes(r: Statistics, cs: seq<int>) {
    && r.minRTT <= MaxInt64
    && (forall i :: 0 <= i < |cs| ==> r.minRTT <= cs[i])
    && (r.minRTT == MaxInt64 || r.minRTT in cs)
    && 0 <= r.maxRTT
    && (forall i :: 0 <= i < |cs| ==> cs[i] <= r.maxRTT)
    && (r.maxRTT == 0 || r.maxRTT in cs)
  }

  lemma StepSums(cs: seq<int>, last: Option<EchoStat>)
    ensures Sum(Extend(cs, last)) == Sum(cs) + (if last.Some? then last.value.cost else 0)
    ensures SumSquares(Extend(cs, last)) == SumSquares(cs) + (if last.Some? then last.value.cost * last.value.cost else 0)
  {
    var cs' := Extend(cs, last);
    if last.Some? {
      assert cs'[..|cs'| - 1] == cs;
    } else {
      assert cs' == cs;
    }
  }

  lemma StepExtremes(p: Statistics, cs: seq<int>, last: Option<EchoStat>)
    requires Extremes(p, cs)
    ensures Extremes(Update(p, last), Extend(cs, last))
  {
    var r := Update(p, last);
    var cs' := Extend(cs, last);
    assert forall i :: 0 <= i < |cs| ==> cs'[i] == cs[i];
    if last.Some? {
      assert cs'[|cs|] == last.value.cost;
    }
  }

  lemma StepSummarises(p: Statistics, transmitted: nat, cs: seq<int>, last: Option<EchoStat>)
    requires Summarises(p, transmitted, cs)
    ensures Summarises(Update(p, last), transmitted + 1, Extend(cs, last))
  {
    StepSums(cs, last);
    StepExtremes(p, cs, last);
  }

  lemma {:induction false} AggregateSummarises(host: string, outs: seq<Option<EchoStat>>)
    ensures Aggregate(Initial(host), outs).host == host
    ensures Summarises(Aggregate(Initial(host), outs), |outs|, Costs(outs))
    decreases |outs|
  {
    if |outs| > 0 {
      var prefix := outs[..|outs| - 1];
      var last := outs[|outs| - 1];
      AggregateSummarises(host, prefix);
      assert Costs(outs) == Extend(Costs(prefix), last);
      StepSummarises(Aggregate(Initial(host), prefix), |prefix|, Costs(prefix), last);
    }
  }

  /** Every successful cost lies between `lo` and `hi`, so their sum lies
      between `|xs| * lo` and `|xs| * hi`. */
  lemma {:induction false} SumBounds(xs: seq<int>, lo: int, hi: int)
    requires forall i :: 0 <= i < |xs| ==> lo <= xs[i] <= hi
    ensures |xs| * lo <= Sum(xs) <= |xs| * hi
    decreases |xs|
  {
    if |xs| > 0 {
      SumBounds(xs[..|xs| - 1], lo, hi);
      assert |xs| * lo == (|xs| - 1) * lo + lo;
      assert |xs| * hi == (|xs| - 1) * hi + hi;
    }
  }

  /** A non-negative total between `lo * n` and `hi * n` has its truncated
      quotient by `n` between `lo` and `hi`. */
  lemma QuotBetween(total: int, n: int, lo: int, hi: int)
    requires n > 0 && total >= 0
    requires lo * n <= total <= hi * n
    ensures lo <= Quot(total, n) <= hi
  {
    var q := Quot(total, n);
    QuotBounds(total, n);
    assert lo * n < (q + 1) * n;
    MulLess(lo, q + 1, n);
    assert q * n < (hi + 1) * n;
    MulLess(q, hi + 1, n);
  }

  /** With non-negative costs the truncated average lies between the minimum
      and the maximum of the successful echoes. */
  lemma AverageBetweenExtremes(host: string, outs: seq<Option<EchoStat>>)
    requires forall i :: 0 <= i < |outs| && outs[i].Some? ==> outs[i].value.cost >= 0
    ensures var r := Aggregate(Initial(host), outs);
      r.received > 0 ==> r.minRTT <= r.avgRTT <= r.maxRTT
  {
    var r := Aggregate(Initial(host), outs);
    AggregateSummarises(host, outs);
    var cs := Costs(outs);
    if r.received > 0 {
      forall i | 0 <= i < |cs| ensures 0 <= cs[i] {
        assert cs[i] in cs;
      }
      MeanBetween(cs, r.minRTT, r.maxRTT);
    }
  }

  /** The truncated mean of non-empty non-negative costs bounded by `lo` and
      `hi` lies between the two. */
  lemma MeanBetween(cs: seq<int>, lo: int, hi: int)
    requires |cs| > 0
    requires forall i :: 0 <= i < |cs| ==> 0 <= cs[i] && lo <= cs[i] <= hi
    ensures lo <= Quot(Sum(cs), |cs|) <= hi
  {
    SumBounds(cs, lo, hi);
    SumBounds(cs, 0, hi);
    QuotBetween(Sum(cs), |cs|, lo, hi);
  }

  /** A session in which every echo succeeded has no loss, and one in which
      every echo failed has lost everything. */
  lemma LossExtremes(host: string, outs: seq<Option<EchoStat>>)
    requires |outs| > 0
    ensures var r := Aggregate(Initial(host), outs);
      && ((forall i :: 0 <= i < |outs| ==> outs[i].Some?) ==> r.received == r.transmitted && r.loss.Is(0))
      && ((forall i :: 0 <= i < |outs| ==> outs[i].None?) ==> r.received == 0 && r.loss.Is(100))
  {
    AggregateSummarises(host, outs);
    LossOfMeaning(|outs|, |Costs(outs)|);
  }

  /** The RTT figures `Print` shows (formatting in milliseconds left out). */
  datatype RttLine = RttLine(min: int, avg: int, max: int)

  /** The content of the report `Print` builds. */
  datatype Report = Report(
    host: string,
    transmitted: nat,
    received: nat,
    loss: Fraction,
    time: int,
    rtt: Option<RttLine>)

  function Print(s: Statistics): (r: Report)
    ensures r.rtt.Some? <==> s.received == s.transmitted
    ensures r.rtt.Some? ==> r.rtt.value == RttLine(s.minRTT, s.avgRTT, s.maxRTT)
    ensures (r.host, r.transmitted, r.received, r.loss, r.time) == (s.host, s.transmitted, s.received, s.loss, s.time)
  {
    Report(s.host, s.transmitted, s.received, s.loss, s.time,
           if s.received == s.transmitted then Some(RttLine(s.minRTT, s.avgRTT, s.maxRTT)) else None)
  }

  /** After a session the RTT line appears exactly when no echo failed. */
  lemma RttLineIffNoLoss(host: string, outs: seq<Option<EchoStat>>)
    ensures Print(Aggregate(Initial(host), outs)).rtt.Some? <==> forall i :: 0 <= i < |outs| ==> outs[i].Some?
  {
    AggregateSummarises(host, outs);
  }

  /** A session that made no attempt at all still passes the gate, so its
      RTT line shows the `MaxInt64` sentinel as the minimum. */
  lemma EmptySessionShowsSentinel(host: string)
    ensures Print(Aggregate(Initial(host), [])).rtt == Some(RttLine(MaxInt64, 0, 0))
  {
  }

  /** One millisecond in nanoseconds. */
  const Millisecond: int := 1_000_000

  /** Folding four outcomes is four updates in order. */
  lemma AggregateFour(s: Statistics, a: Option<EchoStat>, b: Option<EchoStat>, c: Option<EchoStat>, d: Option<EchoStat>)
    ensures Aggregate(s, [a, b, c, d]) == Update(Update(Update(Update(s, a), b), c), d)
  {
    var l1, l2, l3 := [a], [a, b], [a, b, c];
    AggregateSnoc(s, [], a);
    assert [] + [a] == l1;
    AggregateSnoc(s, l1, b);
    assert l1 + [b] == l2;
    AggregateSnoc(s, l2, c);
    assert l2 + [c] == l3;
    AggregateSnoc(s, l3, d);
    assert l3 + [d] == [a, b, c, d];
  }

  /** Folding one more outcome is one more update. */
  lemma AggregateSnoc(s: Statistics, outs: seq<Option<EchoStat>>, x: Option<EchoStat>)
    ensures Aggregate(s, outs + [x]) == Update(Aggregate(s, outs), x)
  {
    assert (outs + [x])[..|outs|] == outs;
  }

  /** Four echoes answered after 10, 12, 11 and 13 ms: nothing lost, the
      extremes are 10 and 13 ms and the mean is 11.5 ms exactly. */
  lemma FourAnsweredEchoes(host: string)
    ensures var r := Aggregate(Initial(host), [
        Some(EchoStat(0, 64, 10 * Millisecond)), Some(EchoStat(1, 64, 12 * Millisecond)),
        Some(EchoStat(2, 64, 11 * Millisecond)), Some(EchoStat(3, 64, 13 * Millisecond))]);
      && r.transmitted == 4 && r.received == 4 && r.loss.Is(0)
      && r.minRTT == 10 * Millisecond && r.maxRTT == 13 * Millisecond
      && r.avgRTT == 11_500_000
      && Print(r).rtt.Some?
  {
    var a, b, c, d := Some(EchoStat(0, 64, 10 * Millisecond)), Some(EchoStat(1, 64, 12 * Millisecond)),
                      Some(EchoStat(2, 64, 11 * Millisecond)), Some(EchoStat(3, 64, 13 * Millisecond));
    AggregateFour(Initial(host), a, b, c, d);
    var r1 := Update(Initial(host), a);
    var r2 := Update(r1, b);
    var r3 := Update(r2, c);
    var r4 := Update(r3, d);
    assert r1.minRTT == 10 * Millisecond && r1.maxRTT == 10 * Millisecond;
    assert r4.time == 46 * Millisecond && r4.received == 4;
    QuotUnique(46 * Millisecond, 4, 11_500_000);
    LossOfMeaning(4, 4);
  }

  /** Four echoes that all time out: everything lost and no RTT line. */
  lemma FourLostEchoes(host: string)
    ensures var r := Aggregate(Initial(host), [None, None, None, None]);
      r.transmitted == 4 && r.received == 0 && r.loss.Is(100) && Print(r).rtt.None?
  {
    AggregateFour(Initial(host), None, None, None, None);
    LossOfMeaning(4, 0);
  }
}

=== FILE: wrappers.dfy ===
/** Failure-compatible wrappers shared by the whole model: `Option` stands for
    a Go pointer that may be nil, `Result` for a Go `(value, error)` pair. */
module Wrappers {

  datatype Option<+T> = None | Some(value: T)

  datatype Result<+T, +E> = Success(value: T) | Failure(error: E) {

    /** The value part of a Go `(value, error)` return: nil on failure. */
    function ToOption(): Option<T> {
      match this
      case Success(v) => Some(v)
      case Failure(_) => None
    }
  }
}
